=== FILE: README.md ===
# copra: channels, REST requests and the token bucket, in Dafny

This project models three small, sequential pieces of the copra client for
the Coinbase Pro exchange and proves properties about them:

- **Websocket channels** (`copra/websocket.py`, module `Websocket`). A
  `Channel` lower-cases its name and checks it against the six feed channel
  names. It refuses empty product ids and collapses the ids into a set.
  `as_dict` turns it into the subscribe-message form. The websocket `Client`
  wraps a single channel argument into a one-element list.
- **REST request building** (`copra/rest.py`, module `Rest`). This covers the
  checks on the order-book level and the candle granularity, the
  query-parameter maps of `get_trades` and `get_historic_rates`, and the
  `/products/{id}/<suffix>` paths. It also covers the `cb-before`/`cb-after`
  cursor headers and the filter that drops candle rows older than `start`.
  The HTTP exchange is a parameter `server` that maps a request to the
  venue's response. Every operation returns a `Call` that records the
  requests it sent and then its return value or the error it raised: `ValueError`
  for a bad level or granularity, `IndexError` for a candle row without a time
  field, the date parser's error for a bad start.
  This makes "nothing is sent when an argument is refused" part of the
  contract.
- **Rate-limited HTTP session** (`copra/rest/rate_limited_session.py`, module
  `RateLimitedSession`). The token bucket is a `Bucket` value with `real`
  fields. The monotonic clock is an explicit `now`. The shared state's
  evolution under any interleaving of waiting requests is an event trace
  (`Poll(now)` for a refill, `Take` for a request let through). The main
  result, `RateLimit`, says that a session created at `t0` lets through at
  most `burst + rate * (until - t0)` `get`, `delete` and `post` requests while
  its clock reads no later than `until`.

`wrappers.dfy` holds the `Option` and `Result` types.

`get_trades` returns `headers.get('cb-before', None)` and
`headers.get('cb-after', None)` (copra/rest.py:315). It therefore returns a
header's value whenever the header is present, even when that value is
empty, and `None` only when the header is absent (`Rest.Cursor`). Its
docstring (copra/rest.py:279-281) says only that the cursors may be `None`.

## Model

| member | source | states |
|---|---|---|
| `Websocket.NewChannel` | copra/websocket.py:46-56 | A channel is built exactly when the lower-cased name is one of heartbeat, ticker, level2, full, matches or user and the product ids are truthy. A bad name raises the name error whatever the ids are, so the name is checked first. A good name with empty ids raises the product-id error. The stored name is the lower-cased name. The id set holds exactly the elements of the (wrapped) id list and is never empty. |
| `Websocket.StoredNameIsLowerCase` | copra/websocket.py:46 | The stored name of every constructed channel is already lower-case. |
| `Websocket.NameCaseInsensitive` | copra/websocket.py:46-49 | Two names with the same lower-case form are accepted or refused together, and when accepted they give equal channels. |
| `Websocket.SingleIdIsWrapped` | copra/websocket.py:54-56 | A single non-empty id given for a valid name yields a channel whose id set is exactly that one id. |
| `Websocket.OnlyDistinctIdsMatter` | copra/websocket.py:56 | Two id lists with the same elements, whatever their order and repetitions, give the same outcome. Duplicates collapse, and no id is added or lost. |
| `Websocket.AsDict` | copra/websocket.py:61-67 | The dictionary carries the stored name. Its product-id list has no repeated element, has exactly the ids of the stored set, and is as long as the set. |
| `Websocket.NewClient` | copra/websocket.py:103-106 | A lone channel becomes the one-element initial channel list. A list of channels is kept unchanged. The feed URL is stored as given. |
| `Websocket.OneChannelIsSingletonList` | copra/websocket.py:103-105 | Passing one channel gives the same client as passing the one-element list holding it. |
| `Rest.ProductPathRoundTrip` | copra/rest.py:207-393 | A product path (built at lines 207, 238, 313 and 393) `/products/{id}/<suffix>` can be read back into exactly the product id and endpoint it was built from, so different products or endpoints never share a path. |
| `Rest.SuffixesDistinguish` | copra/rest.py:207-393 | The endpoint suffixes (lines 207, 238, 313 and 393) `/book`, `/ticker`, `/trades` and `/candles` cannot be confused: an id followed by one of them never ends with another. |
| `Rest.ProductRequestsAddressTheProduct` | copra/rest.py:65-238 | Every request goes to `self.url + path`; `get_ticker` (lines 237-238) sends exactly one such request and returns its response body. Every request sent by the book, ticker, trades and candles operations starts with the client's URL. The rest of it reads back as the requested product id with that operation's endpoint. |
| `Rest.DefaultsAccepted` | copra/rest.py:29-317 | The defaults `url=URL` (line 29), `level=1` (line 113), `limit=100` (line 241) and `granularity=3600` (line 317) are used as follows. The default level 1 and default granularity 3600 are accepted. With the default URL the order book is requested from `https://api.pro.coinbase.com/products/{id}/book`. The default trades query is exactly `{limit: 100}`. The default candle call returns the body unfiltered. |
| `Rest.GetOrderBook` | copra/rest.py:204-209 | The call fails with the level error exactly when the level is not 1, 2 or 3, and then nothing is sent. Otherwise exactly one request goes to the book path with the parameters `{level: level}`, and the body is returned. |
| `Rest.TradeParams` | copra/rest.py:307-311 | `limit` is always present with the given value. `before` is present exactly when the before cursor is truthy, and `after` exactly when the after cursor is truthy, each with its own value. No other key occurs. |
| `Rest.Cursor` | copra/rest.py:315 | A cursor is present exactly when the header is present, and then it is the header's value. |
| `Rest.BeforeCursorRoundTrip` | copra/rest.py:265-281 | A page's before cursor is present exactly when the response carried `cb-before`. Passed back as `before`, it is sent in the next query exactly when it is not empty, and then with its own value. An empty header comes back as an empty cursor and is dropped from the next query. |
| `Rest.AfterCursorRoundTrip` | copra/rest.py:269-281 | The same for the after cursor and the `cb-after` header, which ask for the older page. |
| `Rest.GetTrades` | copra/rest.py:307-315 | Never raises. Exactly one request goes to the trades path with the trade parameters. It returns the body with the `cb-before` and `cb-after` cursors of that response. |
| `Rest.CandleParams` | copra/rest.py:388-391 | `granularity` is always present. `start` and `stop` are added only when both are truthy, and otherwise the parameters are exactly `{granularity}`. |
| `Rest.FilterRows` | copra/rest.py:396-397 | An empty body gives an empty list without parsing `start`. The filter succeeds exactly when every row has a time field and, for a non-empty body, `start` parses. It then returns the rows at or after the parsed time. A parse failure is reported exactly when the first row has a time field and `start` does not parse. Every other failure is the missing-time error. |
| `Rest.GetHistoricRates` | copra/rest.py:385-398 | A granularity outside {60, 300, 900, 3600, 21600, 86400} raises before anything is sent, and nothing is sent exactly in that case. Otherwise exactly one request goes to the candles path. With both bounds the body is filtered, and without them it is returned unchanged. |
| `Rest.SinceIsSubsequence` | copra/rest.py:397 | The filtered rows are a subsequence of the body: no row is added and the order is kept. |
| `Rest.SinceRowsAreRecent` | copra/rest.py:397 | Every kept row has its time at or after the start time. |
| `Rest.SinceCount` | copra/rest.py:397 | A row occurs in the result as often as in the body when its time is at or after the start time, and not at all otherwise. |
| `Rest.SinceShrinks` | copra/rest.py:397 | The multiset of kept rows is contained in the multiset of body rows. |
| `Rest.SinceIdempotent` | copra/rest.py:397 | Filtering an already filtered list with the same start time changes nothing. |
| `RateLimitedSession.NewSession` | copra/rest/rate_limited_session.py:13-17 | A new session starts with a full bucket, `tokens == burst`, and refill time `now`. It satisfies `0 <= tokens <= burst` whenever `burst >= 0`. |
| `RateLimitedSession.AddNewTokens` | copra/rest/rate_limited_session.py:20-26 | When less than one whole token would be in hand, nothing changes, so fractional credit is kept. Otherwise the refill time becomes `now` and the tokens become the smaller of old plus earned and `burst`. `0 <= tokens <= burst` is preserved. With `tokens <= burst`, a non-negative rate and a clock that has not gone back, tokens never decrease. |
| `RateLimitedSession.AddNewTokensAccounted` | copra/rest/rate_limited_session.py:20-26 | A refill keeps the ledger: requests let through plus tokens in hand stay within `burst + rate * (updatedAt - t0)`. |
| `RateLimitedSession.ReplayAccounted` | copra/rest/rate_limited_session.py:20-32 | Under every possible interleaving of refills and takes, rate and burst are unchanged and `0 <= tokens <= burst` holds. Each request let through is counted once in the ledger. |
| `RateLimitedSession.ReplayRefillTime` | copra/rest/rate_limited_session.py:26 | The refill time only ever moves to a clock reading of the trace: after any feasible trace it is the start time or one of the trace's clock readings. |
| `RateLimitedSession.ReplayUpdatedBy` | copra/rest/rate_limited_session.py:26 | The final refill time is at most any bound that the start time and every clock reading of the trace respect. |
| `RateLimitedSession.RateLimit` | copra/rest/rate_limited_session.py:12-47 | A session created at `t0` with non-negative rate and burst lets through at most `burst + rate * (until - t0)` `get`, `delete` and `post` requests, under any interleaving, while its clock reads no later than `until`. |
| `RateLimitedSession.DefaultSession` | copra/rest/rate_limited_session.py:13-16 | A session with the defaults `rate=10`, `burst=15` starts valid and lets through at most `15 + 10 * (until - t0)` `get`, `delete` and `post` requests under any interleaving. |
| `RateLimitedSession.WaitForToken` | copra/rest/rate_limited_session.py:28-32 | With a whole token already in hand, no refill happens and exactly one token is taken. Otherwise refills run while fewer than one token is in hand: before each refill, the state after the earlier refills held fewer than one token, so polling stops at the first whole token. On return exactly one token has been taken from a state with at least one, leaving `tokens >= 0`. If the clock readings run out first, the request is still waiting with fewer than one token. The run is a feasible event trace, and validity is preserved. |
| `RateLimitedSession.Send` | copra/rest/rate_limited_session.py:34-47 | `get`, `delete` and `post` hand the request on only after taking exactly one token, and hand on the verb they were called with. The run is a feasible trace of refills followed by that one take, and polling stops at the first refill that yields a whole token: every earlier prefix of the clock still left the bucket short. With a whole token in hand the request goes out at once. A request that is not handed on has used every clock reading and is still waiting with fewer than one token. |

## Left out

- The order-entry FIX session client (`copra/fix/client.py`) is not modelled.
- HTTP I/O through aiohttp is left out: `Client.get`'s network exchange, `close`, `__aenter__`/`__aexit__` and the User-Agent header. Responses are the `server` parameter.
- The autobahn websocket plumbing is left out: `ClientProtocol`, the factory base class, `add_as_task_to_loop` and `Channel.__call__`. They hold no logic of their own.
- The asyncio polling loop's `asyncio.sleep` and liveness are left out. `WaitForToken` consumes a finite list of clock readings, and a request still waiting when they run out is reported as not acquired.
- `time.monotonic()` is the explicit `now` or clock-reading list.
- `dateutil.parser.parse(start).timestamp()` is the parameter `ts`, with `None` for a string that does not parse. Python floats are Dafny reals, with no rounding.
- The `__main__` demonstration blocks are left out.
- `get_products` is not modelled. It sends a fixed request to `/products` and returns the body, with no checks or parameters.
- Python default arguments are not modelled: every operation takes all of its arguments explicitly. The defaults are recorded as constants (`DefaultLevel`, `DefaultTradeLimit`, `DefaultGranularity`, `Url`, `DefaultRate`, `DefaultBurst`), and `Rest.DefaultsAccepted` and `RateLimitedSession.DefaultSession` state what the calls do with them.
- `Websocket.NewChannel`: `str.lower()` is modelled for ASCII letters and KELVIN SIGN (the only non-ASCII character that lower-cases to an ASCII letter). Other non-ASCII case mappings are left out. They cannot make a name valid, and they change no accepted name.
- `Websocket.NewChannel`: product ids are a string or a list of strings. Other Python values (tuples, numbers) are not modelled.
- `Websocket.NewChannel`: Python `Channel` has no `__eq__`, so its objects compare by identity. "Equal channels" means equal name and id set.
- `Rest.GetOrderBook`: the level is an integer. Python values such as `True` or `1.0`, which compare equal to an accepted integer, are not modelled.
- `Rest.GetHistoricRates`: the granularity is an integer. Python values such as `3600.0`, which compare equal to an accepted integer, are not modelled.
- `Rest.GetHistoricRates`: the candle body is a list of numeric rows. A non-list error body from the venue is not modelled.
- `Rest.Cursor`: response headers are a plain map. Repeated headers in the underlying multidict are not modelled.
- `RateLimitedSession.RateLimit`: only `get`, `delete` and `post` take a token. The other request methods a session inherits from aiohttp's `ClientSession` (`put`, `patch`, `head`, `options`, `request`) bypass the bucket and are not counted by the bound.
- `RateLimitedSession.WaitForToken`: the method runs one waiting request alone. Interleavings with other requests sharing the bucket are covered by the event-trace lemmas instead.

=== FILE: rate_limited_session.dfy ===
/**
 Model of the token bucket in copra/rest/rate_limited_session.py. The
 session's mutable fields are a `Bucket` value threaded through the
 operations; the monotonic clock is an explicit `now` (or a list of clock
 readings, one per pass of the waiting loop); Python floats are reals.
 */
module RateLimitedSession {
  import opened Wrappers

  const DefaultRate: real := 10.0
  const DefaultBurst: real := 15.0

  /** `rate` tokens per second, at most `burst` stored, `tokens` now, last refill at `updatedAt`. */
  datatype Bucket = Bucket(rate: real, burst: real, tokens: real, updatedAt: real)

  /** The bucket is neither overdrawn nor overfull. */
  predicate Valid(b: Bucket)
  {
    0.0 <= b.tokens <= b.burst
  }

  function Min(x: real, y: real): real
  {
    if x <= y then x else y
  }

  /** `RateLimitedSession(rate=..., burst=...)` created at time `now`: the bucket starts full. */
  function NewSession(rate: real, burst: real, now: real): (b: Bucket)
    ensures b.rate == rate && b.burst == burst && b.updatedAt == now
    ensures b.tokens == b.burst
    ensures 0.0 <= burst ==> Valid(b)
  {
    Bucket(rate, burst, burst, now)
  }

  /** The tokens earned since the last refill. */
  function Earned(b: Bucket, now: real): real
  {
    (now - b.updatedAt) * b.rate
  }

  /**
   `add_new_tokens`: the earned tokens are credited, up to `burst`, only once
   at least one whole token is available; until then nothing changes, so the
   fractional credit keeps accruing from the same `updatedAt`.
   */
  function AddNewTokens(b: Bucket, now: real): (r: Bucket)
    ensures r.rate == b.rate && r.burst == b.burst
    ensures b.tokens + Earned(b, now) < 1.0 ==> r == b
    ensures b.tokens + Earned(b, now) >= 1.0 ==>
      && r.updatedAt == now
      && r.tokens <= b.tokens + Earned(b, now)
      && r.tokens <= b.burst
      && (r.tokens == b.tokens + Earned(b, now) || r.tokens == b.burst)
    ensures Valid(b) ==> Valid(r)
    ensures b.tokens <= b.burst && 0.0 <= b.rate && b.updatedAt <= now ==> b.tokens <= r.tokens
  {
    var earned := Earned(b, now);
    assert 0.0 <= b.rate && b.updatedAt <= now ==> 0.0 <= earned by {
      if 0.0 <= b.rate && b.updatedAt <= now {
        MulNonNegative(now - b.updatedAt, b.rate);
      }
    }
    if b.tokens + earned >= 1.0 then b.(tokens := Min(b.tokens + earned, b.burst), updatedAt := now)
    else b
  }

  // ---------------------------------------------------------------------
  // Event traces: every way the session's state can evolve

  /**
   What can happen to the shared bucket: a waiting request polls the clock
   (`add_new_tokens`), or a request whose loop test saw a whole token takes
   it (`self.tokens -= 1`, with no suspension between test and decrement).
   */
  datatype Event = Poll(now: real) | Take

  /** One event; a take without a whole token cannot happen. */
  function Step(b: Bucket, e: Event): Option<Bucket>
  {
    match e
    case Poll(now) => Some(AddNewTokens(b, now))
    case Take => if b.tokens >= 1.0 then Some(b.(tokens := b.tokens - 1.0)) else None
  }

  /** The state after a trace of events, or `None` if the trace cannot happen. */
  function Replay(b: Bucket, events: seq<Event>): Option<Bucket>
    decreases |events|
  {
    if events == [] then Some(b)
    else match Step(b, events[0])
      case None => None
      case Some(b') => Replay(b', events[1..])
  }

  /** How many requests a trace let through. */
  function Takes(events: seq<Event>): nat
  {
    if events == [] then 0 else (if events[0].Take? then 1 else 0) + Takes(events[1..])
  }

  /**
   The ledger of the bucket: requests already let through plus tokens in hand
   never exceed the initial burst plus what the rate has earned since `t0`
   up to the last refill.
   */
  predicate Accounted(b: Bucket, t0: real, sent: int)
  {
    sent as real + b.tokens <= b.burst + b.rate * (b.updatedAt - t0)
  }

  /** A refill keeps the ledger. */
  lemma AddNewTokensAccounted(b: Bucket, now: real, t0: real, sent: int)
    requires Accounted(b, t0, sent)
    ensures Accounted(AddNewTokens(b, now), t0, sent)
  {
    var r := AddNewTokens(b, now);
    if b.tokens + Earned(b, now) >= 1.0 {
      assert r.tokens <= b.tokens + Earned(b, now);
      assert Earned(b, now) == (now - b.updatedAt) * b.rate;
      CreditBound(sent as real, b.tokens, r.tokens, b.burst, b.rate, b.updatedAt, now, t0);
    }
  }

  /** The arithmetic step of a refill: crediting at most what was earned keeps the ledger. */
  lemma CreditBound(sent: real, tokens: real, tokens': real, burst: real, rate: real, updatedAt: real, now: real, t0: real)
    requires sent + tokens <= burst + rate * (updatedAt - t0)
    requires tokens' <= tokens + (now - updatedAt) * rate
    ensures sent + tokens' <= burst + rate * (now - t0)
  {
    assert rate * (now - t0) == rate * (updatedAt - t0) + (now - updatedAt) * rate;
  }

  /** Replaying a trace and then one more event is the same as stepping from the trace's end state. */
  lemma ReplayAppend(b: Bucket, events: seq<Event>, e: Event)
    requires Replay(b, events).Some?
    ensures Replay(b, events + [e]) == Step(Replay(b, events).value, e)
    decreases |events|
  {
    if events != [] {
      assert (events + [e])[1..] == events[1..] + [e];
      ReplayAppend(Step(b, events[0]).value, events[1..], e);
    }
  }

  /** Every possible trace keeps the bucket valid and the ledger balanced, counting each request once. */
  lemma {:induction false} ReplayAccounted(b: Bucket, events: seq<Event>, t0: real, sent: int)
    requires Valid(b) && Accounted(b, t0, sent)
    requires Replay(b, events).Some?
    ensures Replay(b, events).value.rate == b.rate && Replay(b, events).value.burst == b.burst
    ensures Valid(Replay(b, events).value)
    ensures Accounted(Replay(b, events).value, t0, sent + Takes(events))
    decreases |events|
  {
    if events != [] {
      var b' := Step(b, events[0]).value;
      if events[0].Poll? {
        AddNewTokensAccounted(b, events[0].now, t0, sent);
      }
      ReplayAccounted(b', events[1..], t0, sent + (if events[0].Take? then 1 else 0));
    }
  }

  /** The clock readings of a trace are all at most `until`. */
  predicate PolledBy(events: seq<Event>, until: real)
  {
    forall i :: 0 <= i < |events| && events[i].Poll? ==> events[i].now <= until
  }

  /** Refills only move `updatedAt` to a clock reading of the trace: the final refill time is the start time or one of its readings. */
  lemma {:induction false} ReplayRefillTime(b: Bucket, events: seq<Event>)
    requires Replay(b, events).Some?
    ensures var u := Replay(b, events).value.updatedAt;
      u == b.updatedAt || exists i :: 0 <= i < |events| && events[i].Poll? && events[i].now == u
    decreases |events|
  {
    if events != [] {
      var b1 := Step(b, events[0]).value;
      ReplayRefillTime(b1, events[1..]);
      var u := Replay(b, events).value.updatedAt;
      assert u == Replay(b1, events[1..]).value.updatedAt;
      assert b1.updatedAt == b.updatedAt || (events[0].Poll? && events[0].now == b1.updatedAt);
      if u != b1.updatedAt {
        var i :| 0 <= i < |events[1..]| && events[1..][i].Poll? && events[1..][i].now == u;
        assert events[i + 1] == events[1..][i];
      } else if u != b.updatedAt {
        assert events[0].Poll? && events[0].now == u;
      }
    }
  }

  /** The final refill time stays within any bound that the start time and every clock reading of the trace respect. */
  lemma ReplayUpdatedBy(b: Bucket, events: seq<Event>, until: real)
    requires b.updatedAt <= until && PolledBy(events, until)
    requires Replay(b, events).Some?
    ensures Replay(b, events).value.updatedAt <= until
  {
    ReplayRefillTime(b, events);
  }

  lemma MulNonNegative(x: real, y: real)
    requires 0.0 <= x && 0.0 <= y
    ensures 0.0 <= x * y
  {
  }

  /**
   The rate limit: whatever the interleaving of waiting requests, a session
   created at `t0` lets through at most `burst + rate * (until - t0)` `get`,
   `delete` and `post` requests when its clock has read no later than `until`.
   */
  lemma RateLimit(rate: real, burst: real, t0: real, events: seq<Event>, until: real)
    requires 0.0 <= rate && 0.0 <= burst && t0 <= until
    requires PolledBy(events, until)
    requires Replay(NewSession(rate, burst, t0), events).Some?
    ensures Takes(events) as real <= burst + rate * (until - t0)
  {
    var b := NewSession(rate, burst, t0);
    ReplayAccounted(b, events, t0, 0);
    ReplayUpdatedBy(b, events, until);
    var b' := Replay(b, events).value;
    LedgerBound(Takes(events) as real, b'.tokens, burst, rate, b'.updatedAt, t0, until);
  }

  /** The arithmetic step of the rate limit: tokens in hand are never negative, time only adds credit. */
  lemma LedgerBound(sent: real, tokens: real, burst: real, rate: real, updatedAt: real, t0: real, until: real)
    requires sent + tokens <= burst + rate * (updatedAt - t0)
    requires 0.0 <= tokens && 0.0 <= rate && updatedAt <= until
    ensures sent <= burst + rate * (until - t0)
  {
    MulNonNegative(rate, until - updatedAt);
    assert rate * (until - t0) == rate * (updatedAt - t0) + rate * (until - updatedAt);
  }

  // ---------------------------------------------------------------------
  // One waiting request

  /** The poll events of a list of clock readings. */
  function PollEvents(clock: seq<real>): seq<Event>
  {
    seq(|clock|, i requires 0 <= i < |clock| => Poll(clock[i]))
  }

  /** The polls, followed by a take when `took`, can happen from `b` and end in `r`. */
  predicate Feasible(b: Bucket, polls: seq<Event>, took: bool, r: Bucket)
  {
    var trace := polls + (if took then [Take] else []);
    Replay(b, trace).Some? && Replay(b, trace).value == r
  }

  /** After the refills at `clock`, still fewer than one token is in hand: the loop polls again. */
  predicate StillShort(b: Bucket, clock: seq<real>)
  {
    Replay(b, PollEvents(clock)).Some? && Replay(b, PollEvents(clock)).value.tokens < 1.0
  }

  /**
   `wait_for_token`, run alone against the clock readings `clock` taken by
   successive passes of its loop: it polls while fewer than one token is in
   hand, then takes one. `acquired` is false when the readings ran out first
   (the coroutine is still waiting); `polled` counts the refills made.
   */
  method WaitForToken(b: Bucket, clock: seq<real>) returns (r: Bucket, acquired: bool, polled: nat)
    ensures polled <= |clock|
    ensures Feasible(b, PollEvents(clock[..polled]), acquired, r)
    ensures forall k :: 0 <= k < polled ==> StillShort(b, clock[..k])
    ensures r.rate == b.rate && r.burst == b.burst
    ensures b.tokens >= 1.0 ==> acquired && polled == 0 && r == b.(tokens := b.tokens - 1.0)
    ensures acquired ==> 0.0 <= r.tokens
    ensures !acquired ==> polled == |clock| && r.tokens < 1.0
    ensures Valid(b) ==> Valid(r)
  {
    r := b;
    polled := 0;
    while r.tokens < 1.0 && polled < |clock|
      invariant polled <= |clock|
      invariant Replay(b, PollEvents(clock[..polled])) == Some(r)
      invariant r.rate == b.rate && r.burst == b.burst
      invariant b.tokens >= 1.0 ==> polled == 0 && r == b
      invariant forall k :: 0 <= k < polled ==> StillShort(b, clock[..k])
      invariant Valid(b) ==> Valid(r)
      decreases |clock| - polled
    {
      assert PollEvents(clock[..polled + 1]) == PollEvents(clock[..polled]) + [Poll(clock[polled])];
      ReplayAppend(b, PollEvents(clock[..polled]), Poll(clock[polled]));
      r := AddNewTokens(r, clock[polled]);
      polled := polled + 1;
    }
    if r.tokens >= 1.0 {
      ReplayAppend(b, PollEvents(clock[..polled]), Take);
      r := r.(tokens := r.tokens - 1.0);
      acquired := true;
    } else {
      assert PollEvents(clock[..polled]) + [] == PollEvents(clock[..polled]);
      acquired := false;
    }
  }

  /** The HTTP verbs the session overrides. */
  datatype Verb = Get | Delete | Post

  /**
   `get`, `delete` and `post`: wait for a token, then hand the request to
   the underlying HTTP session. `delegated` is the request handed on, present
   exactly when one token was taken for it.
   */
  method Send(b: Bucket, verb: Verb, clock: seq<real>) returns (r: Bucket, delegated: Option<Verb>)
    ensures delegated.Some? ==> delegated.value == verb
    ensures exists polled :: (0 <= polled <= |clock| && Feasible(b, PollEvents(clock[..polled]), delegated.Some?, r)
                              && (forall k :: 0 <= k < polled ==> StillShort(b, clock[..k]))
                              && (delegated.None? ==> polled == |clock|))
    ensures b.tokens >= 1.0 ==> delegated.Some? && r == b.(tokens := b.tokens - 1.0)
    ensures delegated.None? ==> r.tokens < 1.0
    ensures Valid(b) ==> Valid(r)
  {
    var acquired, polled;
    r, acquired, polled := WaitForToken(b, clock);
    delegated := if acquired then Some(verb) else None;
    assert Feasible(b, PollEvents(clock[..polled]), delegated.Some?, r)
      && (forall k :: 0 <= k < polled ==> StillShort(b, clock[..k]))
      && (delegated.None? ==> polled == |clock|);
  }

  /** The default session (`rate=10`, `burst=15`) starts valid and lets through at most 15 + 10 per second. */
  lemma DefaultSession(t0: real, events: seq<Event>, until: real)
    requires t0 <= until && PolledBy(events, until)
    requires Replay(NewSession(DefaultRate, DefaultBurst, t0), events).Some?
    ensures Valid(NewSession(DefaultRate, DefaultBurst, t0))
    ensures Takes(events) as real <= 15.0 + 10.0 * (until - t0)
  {
    RateLimit(DefaultRate, DefaultBurst, t0, events, until);
  }
}

=== FILE: rest.dfy ===
/**
 Model of the request side of the REST client in copra/rest.py: argument
 checks, query-parameter maps and paths of the product endpoints, the cursor
 headers of a trades page, and the filter applied to historic-rate rows.
 The HTTP exchange is a parameter `server` that maps a request to the
 response the venue gives; every operation reports the requests it sent.
 */
module Rest {
  import opened Wrappers

  const Url: string := "https://api.pro.coinbase.com"

  const DefaultLevel: int := 1
  const DefaultTradeLimit: int := 100
  const DefaultGranularity: int := 3600

  /** The order-book levels the venue serves. */
  const Levels: set<int> := {1, 2, 3}

  /** The candle widths, in seconds, the venue serves. */
  const Granularities: set<int> := {60, 300, 900, 3600, 21600, 86400}

  /** A query-parameter value: an integer or a string. */
  datatype Param = IntParam(n: int) | StrParam(s: string)

  type Params = map<string, Param>

  /** Python truthiness of an optional cursor: `None`, `0` and `''` are false. */
  predicate Truthy(p: Option<Param>)
  {
    match p
    case None => false
    case Some(IntParam(n)) => n != 0
    case Some(StrParam(s)) => s != ""
  }

  /** Python truthiness of an optional time bound: `None` and `''` are false. */
  predicate TruthyText(s: Option<string>)
  {
    s.Some? && s.value != ""
  }

  /** A GET request: the full URL and the optional query parameters. */
  datatype Request = Request(url: string, params: Option<Params>)

  /** A response as the client sees it: header dictionary and decoded JSON body. */
  datatype Response<B> = Response(headers: map<string, string>, body: B)

  /** What an operation did: the requests it sent, then its return value or the error it raised. */
  datatype Call<T> = Call(sent: seq<Request>, result: Result<T, RestError>)

  datatype RestError =
    | InvalidLevel(level: int)
    | InvalidGranularity(granularity: int)
    | MissingTime            // IndexError: a candle row without a time field
    | BadStart(start: string) // the start bound does not parse as a date

  datatype Client = Client(url: string)

  /** `Client.get`: the request goes to the client's base URL followed by the path. */
  function Get<B>(c: Client, path: string, params: Option<Params>, server: Request -> Response<B>): (Request, Response<B>)
  {
    var req := Request(c.url + path, params);
    (req, server(req))
  }

  // ---------------------------------------------------------------------
  // Paths

  /** The product endpoints: `/products/{id}/<suffix>`. */
  datatype Endpoint = Book | Ticker | Trades | Candles

  const ProductsPath: string := "/products"

  function Suffix(e: Endpoint): string
  {
    match e
    case Book => "/book"
    case Ticker => "/ticker"
    case Trades => "/trades"
    case Candles => "/candles"
  }

  function ProductPath(productId: string, e: Endpoint): string
  {
    ProductsPath + "/" + productId + Suffix(e)
  }

  predicate EndsWith(s: string, suffix: string)
  {
    |suffix| <= |s| && s[|s| - |suffix|..] == suffix
  }

  /** Reads the endpoint suffix off the end of `/products/`-relative text. */
  function StripSuffix(rest: string): Option<(string, Endpoint)>
  {
    if EndsWith(rest, Suffix(Book)) then Some((rest[..|rest| - |Suffix(Book)|], Book))
    else if EndsWith(rest, Suffix(Ticker)) then Some((rest[..|rest| - |Suffix(Ticker)|], Ticker))
    else if EndsWith(rest, Suffix(Trades)) then Some((rest[..|rest| - |Suffix(Trades)|], Trades))
    else if EndsWith(rest, Suffix(Candles)) then Some((rest[..|rest| - |Suffix(Candles)|], Candles))
    else None
  }

  /** Reads a product path back into its product id and endpoint. */
  function ParseProductPath(path: string): Option<(string, Endpoint)>
  {
    var prefix := ProductsPath + "/";
    if |path| < |prefix| || path[..|prefix|] != prefix then None
    else StripSuffix(path[|prefix|..])
  }

  /** A product id followed by one endpoint suffix never ends with another endpoint's suffix. */
  lemma SuffixesDistinguish(id: string, e: Endpoint, e': Endpoint)
    requires e != e'
    ensures !EndsWith(id + Suffix(e), Suffix(e'))
  {
    var s := id + Suffix(e);
    var n, m := |Suffix(e)|, |Suffix(e')|;
    // the suffixes differ in their last character, except "/trades" and "/candles" (third from last)
    var k := if (e == Trades && e' == Candles) || (e == Candles && e' == Trades) then 3 else 1;
    if m <= |s| {
      assert s[|s| - k] == Suffix(e)[n - k];
      assert s[|s| - m..][m - k] == s[|s| - k];
      assert Suffix(e)[n - k] != Suffix(e')[m - k];
    }
  }

  /** The suffix of a product id followed by an endpoint's suffix is read back. */
  lemma StripSuffixRoundTrip(id: string, e: Endpoint)
    ensures StripSuffix(id + Suffix(e)) == Some((id, e))
  {
    var rest := id + Suffix(e);
    assert rest[|rest| - |Suffix(e)|..] == Suffix(e);
    assert rest[..|rest| - |Suffix(e)|] == id;
    match e
    case Book =>
    case Ticker => SuffixesDistinguish(id, e, Book);
    case Trades => SuffixesDistinguish(id, e, Book); SuffixesDistinguish(id, e, Ticker);
    case Candles => SuffixesDistinguish(id, e, Book); SuffixesDistinguish(id, e, Ticker); SuffixesDistinguish(id, e, Trades);
  }

  /** Every product path names its product id and endpoint unambiguously. */
  lemma ProductPathRoundTrip(productId: string, e: Endpoint)
    ensures ParseProductPath(ProductPath(productId, e)).Some?
    ensures ParseProductPath(ProductPath(productId, e)).value == (productId, e)
  {
    var prefix := ProductsPath + "/";
    var path := ProductPath(productId, e);
    assert path == prefix + (productId + Suffix(e));
    assert path[..|prefix|] == prefix;
    assert path[|prefix|..] == productId + Suffix(e);
    StripSuffixRoundTrip(productId, e);
  }

  // ---------------------------------------------------------------------
  // Ticker

  /** `get_ticker`: one request to the product's ticker path without parameters. */
  function GetTicker<B>(c: Client, productId: string, server: Request -> Response<B>): Call<B>
  {
    var (req, resp) := Get(c, ProductPath(productId, Ticker), None, server);
    Call([req], Success(resp.body))
  }

  // ---------------------------------------------------------------------
  // Order book

  /**
   `get_order_book`: a level outside 1..3 raises before anything is sent;
   otherwise one request to the book path with exactly the parameter `level`.
   */
  function GetOrderBook<B>(c: Client, productId: string, level: int, server: Request -> Response<B>): (r: Call<B>)
    ensures r.result.Failure? <==> level !in Levels
    ensures r.result.Failure? ==> r.sent == [] && r.result.error == InvalidLevel(level)
    ensures r.result.Success? ==>
      && r.sent == [Request(c.url + ProductPath(productId, Book), Some(map["level" := IntParam(level)]))]
      && r.result.value == server(r.sent[0]).body
  {
    if level !in Levels then Call([], Failure(InvalidLevel(level)))
    else
      var (req, resp) := Get(c, ProductPath(productId, Book), Some(map["level" := IntParam(level)]), server);
      Call([req], Success(resp.body))
  }

  // ---------------------------------------------------------------------
  // Trades

  /** The query of `get_trades`: `limit` always, each cursor only when truthy. */
  function TradeParams(limit: int, before: Option<Param>, after: Option<Param>): (p: Params)
    ensures "limit" in p && p["limit"] == IntParam(limit)
    ensures "before" in p <==> Truthy(before)
    ensures "after" in p <==> Truthy(after)
    ensures Truthy(before) ==> p["before"] == before.value
    ensures Truthy(after) ==> p["after"] == after.value
    ensures p.Keys <= {"limit", "before", "after"}
  {
    var p := map["limit" := IntParam(limit)];
    var p := if Truthy(before) then p["before" := before.value] else p;
    if Truthy(after) then p["after" := after.value] else p
  }

  /** A page of trades with the cursors for the newer and the older page. */
  datatype TradesPage<B> = TradesPage(trades: B, before: Option<string>, after: Option<string>)

  /** `headers.get(key, None)`: the header's value when present, even an empty one. */
  function Cursor(headers: map<string, string>, key: string): (r: Option<string>)
    ensures r.Some? <==> key in headers
    ensures r.Some? ==> r.value == headers[key]
  {
    if key in headers then Some(headers[key]) else None
  }

  /** `get_trades`: never raises; one request; the cursors come from `cb-before` and `cb-after`. */
  function GetTrades<B>(c: Client, productId: string, limit: int, before: Option<Param>, after: Option<Param>,
                        server: Request -> Response<B>): (r: Call<TradesPage<B>>)
    ensures r.sent == [Request(c.url + ProductPath(productId, Trades), Some(TradeParams(limit, before, after)))]
    ensures r.result.Success?
    ensures r.result.value.trades == server(r.sent[0]).body
    ensures r.result.value.before == Cursor(server(r.sent[0]).headers, "cb-before")
    ensures r.result.value.after == Cursor(server(r.sent[0]).headers, "cb-after")
  {
    var (req, resp) := Get(c, ProductPath(productId, Trades), Some(TradeParams(limit, before, after)), server);
    Call([req], Success(TradesPage(resp.body, Cursor(resp.headers, "cb-before"), Cursor(resp.headers, "cb-after"))))
  }

  // ---------------------------------------------------------------------
  // Historic rates

  /** A candle row `[time, low, high, open, close, volume]`. */
  type Row = seq<real>

  /** The query of `get_historic_rates`: the bounds are sent only when both are truthy. */
  function CandleParams(granularity: int, start: Option<string>, stop: Option<string>): (p: Params)
    ensures "granularity" in p && p["granularity"] == IntParam(granularity)
    ensures TruthyText(start) && TruthyText(stop) ==>
      p == map["granularity" := IntParam(granularity), "start" := StrParam(start.value), "stop" := StrParam(stop.value)]
    ensures !(TruthyText(start) && TruthyText(stop)) ==> p.Keys == {"granularity"}
  {
    var p := map["granularity" := IntParam(granularity)];
    if TruthyText(start) && TruthyText(stop) then p["start" := StrParam(start.value)]["stop" := StrParam(stop.value)]
    else p
  }

  /** Every row has a time field. */
  predicate HasTimes(rows: seq<Row>)
  {
    forall i :: 0 <= i < |rows| ==> |rows[i]| > 0
  }

  /** The rows whose time is at or after `t`, in their original order. */
  function Since(rows: seq<Row>, t: real): seq<Row>
    requires HasTimes(rows)
  {
    if rows == [] then []
    else (if rows[0][0] >= t then [rows[0]] else []) + Since(rows[1..], t)
  }

  /** `a` is `b` with some elements left out, the rest kept in order. */
  predicate IsSubsequence<T(==)>(a: seq<T>, b: seq<T>)
    decreases |b|
  {
    if a == [] then true
    else if b == [] then false
    else (a[0] == b[0] && IsSubsequence(a[1..], b[1..])) || IsSubsequence(a, b[1..])
  }

  /**
   The list comprehension `[x for x in body if x[0] >= ts(start)]`: rows are
   visited in order, and for each the time field is read before `start` is
   parsed, so an empty first row raises `IndexError` even when `start` does
   not parse, and an empty body never parses `start` at all.
   */
  function FilterRows(rows: seq<Row>, start: string, ts: string -> Option<real>): (r: Result<seq<Row>, RestError>)
    ensures rows == [] ==> r == Success([])
    ensures r.Success? <==> HasTimes(rows) && (rows != [] ==> ts(start).Some?)
    ensures r.Success? && rows != [] ==> r.value == Since(rows, ts(start).value)
    ensures r == Failure(BadStart(start)) <==> rows != [] && |rows[0]| > 0 && ts(start).None?
    ensures r.Failure? ==> r.error == MissingTime || r.error == BadStart(start)
  {
    if rows == [] then Success([])
    else if |rows[0]| == 0 then Failure(MissingTime)
    else match ts(start)
      case None => Failure(BadStart(start))
      case Some(t) => if HasTimes(rows) then Success(Since(rows, t)) else Failure(MissingTime)
  }

  /**
   `get_historic_rates`: a granularity outside the fixed set raises before
   anything is sent; otherwise one request to the candles path, and when
   both bounds are given the rows before `start` are dropped from the body.
   */
  function GetHistoricRates(c: Client, productId: string, granularity: int, start: Option<string>, stop: Option<string>,
                            server: Request -> Response<seq<Row>>, ts: string -> Option<real>): (r: Call<seq<Row>>)
    ensures r.sent == [] <==> granularity !in Granularities
    ensures granularity !in Granularities ==> r.result == Failure(InvalidGranularity(granularity))
    ensures granularity in Granularities ==>
      r.sent == [Request(c.url + ProductPath(productId, Candles), Some(CandleParams(granularity, start, stop)))]
    ensures granularity in Granularities && !(TruthyText(start) && TruthyText(stop)) ==>
      r.result == Success(server(r.sent[0]).body)
    ensures granularity in Granularities && TruthyText(start) && TruthyText(stop) ==>
      r.result == FilterRows(server(r.sent[0]).body, start.value, ts)
  {
    if granularity !in Granularities then Call([], Failure(InvalidGranularity(granularity)))
    else
      var (req, resp) := Get(c, ProductPath(productId, Candles), Some(CandleParams(granularity, start, stop)), server);
      if TruthyText(start) && TruthyText(stop) then Call([req], FilterRows(resp.body, start.value, ts))
      else Call([req], Success(resp.body))
  }

  // ---------------------------------------------------------------------
  // Properties of the row filter

  /** Filtering keeps rows in their order and adds none. */
  lemma {:induction false} SinceIsSubsequence(rows: seq<Row>, t: real)
    requires HasTimes(rows)
    ensures IsSubsequence(Since(rows, t), rows)
  {
    if rows != [] {
      var rest := Since(rows[1..], t);
      SinceIsSubsequence(rows[1..], t);
      if rows[0][0] >= t {
        assert Since(rows, t) == [rows[0]] + rest;
        assert ([rows[0]] + rest)[1..] == rest;
      } else {
        assert Since(rows, t) == rest;
        SubsequenceOfTail(rest, rows);
      }
    }
  }

  /** A subsequence of the tail is a subsequence of the whole. */
  lemma {:induction false} SubsequenceOfTail<T>(a: seq<T>, b: seq<T>)
    requires b != [] && IsSubsequence(a, b[1..])
    ensures IsSubsequence(a, b)
  {
  }

  /** Every kept row has its time at or after `t`. */
  lemma {:induction false} SinceRowsAreRecent(rows: seq<Row>, t: real)
    requires HasTimes(rows)
    ensures HasTimes(Since(rows, t))
    ensures forall j :: 0 <= j < |Since(rows, t)| ==> Since(rows, t)[j][0] >= t
  {
    if rows != [] {
      SinceRowsAreRecent(rows[1..], t);
    }
  }

  /** How often one row occurs after filtering. */
  lemma {:induction false} SinceCount(rows: seq<Row>, t: real, x: Row)
    requires HasTimes(rows) && |x| > 0
    ensures multiset(Since(rows, t))[x] == if x[0] >= t then multiset(rows)[x] else 0
  {
    if rows != [] {
      var tail := rows[1..];
      SinceCount(tail, t, x);
      assert rows == [rows[0]] + tail;
      assert multiset(Since(rows, t)) == (if rows[0][0] >= t then multiset{rows[0]} else multiset{}) + multiset(Since(tail, t));
    }
  }

  /** Filtering never adds a row. */
  lemma {:induction false} SinceShrinks(rows: seq<Row>, t: real)
    requires HasTimes(rows)
    ensures multiset(Since(rows, t)) <= multiset(rows)
  {
    if rows != [] {
      var tail := rows[1..];
      SinceShrinks(tail, t);
      assert rows == [rows[0]] + tail;
    }
  }

  /** Filtering an already filtered list changes nothing. */
  lemma {:induction false} SinceIdempotent(rows: seq<Row>, t: real)
    requires HasTimes(rows)
    ensures HasTimes(Since(rows, t))
    ensures Since(Since(rows, t), t) == Since(rows, t)
  {
    SinceRowsAreRecent(rows, t);
    if rows != [] {
      SinceIdempotent(rows[1..], t);
      var rest := Since(rows[1..], t);
      if rows[0][0] < t {
        assert Since(rows, t) == rest;
      } else {
        var kept := [rows[0]] + rest;
        assert kept == Since(rows, t);
        assert kept != [] && kept[0] == rows[0] && kept[1..] == rest;
        assert HasTimes(kept[1..]);
        assert Since(kept, t) == [rows[0]] + Since(kept[1..], t);
      }
    }
  }

  // ---------------------------------------------------------------------
  // Properties of the requests

  /** The request goes to the client's base URL followed by the path of `productId` at endpoint `e`. */
  predicate Addresses(c: Client, req: Request, productId: string, e: Endpoint)
  {
    && |c.url| <= |req.url| && req.url[..|c.url|] == c.url
    && ParseProductPath(req.url[|c.url|..]).Some?
    && ParseProductPath(req.url[|c.url|..]).value == (productId, e)
  }

  /** Every request goes to the client's base URL, and its path names the product and endpoint asked for. */
  lemma ProductRequestsAddressTheProduct<B>(c: Client, productId: string, level: int, limit: int,
                                            before: Option<Param>, after: Option<Param>, granularity: int,
                                            start: Option<string>, stop: Option<string>,
                                            server: Request -> Response<B>, candles: Request -> Response<seq<Row>>,
                                            ts: string -> Option<real>)
    ensures forall req | req in GetOrderBook(c, productId, level, server).sent :: Addresses(c, req, productId, Book)
    ensures forall req | req in GetTicker(c, productId, server).sent :: Addresses(c, req, productId, Ticker)
    ensures |GetTicker(c, productId, server).sent| == 1
    ensures GetTicker(c, productId, server).result == Success(server(GetTicker(c, productId, server).sent[0]).body)
    ensures forall req | req in GetTrades(c, productId, limit, before, after, server).sent :: Addresses(c, req, productId, Trades)
    ensures forall req | req in GetHistoricRates(c, productId, granularity, start, stop, candles, ts).sent ::
      Addresses(c, req, productId, Candles)
  {
    forall e: Endpoint
      ensures (c.url + ProductPath(productId, e))[|c.url|..] == ProductPath(productId, e)
      ensures ParseProductPath(ProductPath(productId, e)) == Some((productId, e))
    {
      ProductPathRoundTrip(productId, e);
    }
  }

  // ---------------------------------------------------------------------
  // Paging and defaults

  /**
   Passing a page's before cursor back as `before` asks for the newer page:
   the cursor is present exactly when the response had a `cb-before` header,
   and the next query carries it exactly when it is not empty. An empty
   header is returned as an empty cursor and silently left out of the next
   query.
   */
  lemma BeforeCursorRoundTrip<B>(c: Client, productId: string, limit: int, before: Option<Param>, after: Option<Param>,
                                 server: Request -> Response<B>, nextLimit: int, nextAfter: Option<Param>)
    ensures var page := GetTrades(c, productId, limit, before, after, server).result.value;
      && (page.before.Some? <==> "cb-before" in server(GetTrades(c, productId, limit, before, after, server).sent[0]).headers)
      && (page.before.Some? ==>
            var next := TradeParams(nextLimit, Some(StrParam(page.before.value)), nextAfter);
            && ("before" in next <==> page.before.value != "")
            && (page.before.value != "" ==> next["before"] == StrParam(page.before.value)))
  {
  }

  /** The same for the after cursor, which asks for the older page. */
  lemma AfterCursorRoundTrip<B>(c: Client, productId: string, limit: int, before: Option<Param>, after: Option<Param>,
                                server: Request -> Response<B>, nextLimit: int, nextBefore: Option<Param>)
    ensures var page := GetTrades(c, productId, limit, before, after, server).result.value;
      && (page.after.Some? <==> "cb-after" in server(GetTrades(c, productId, limit, before, after, server).sent[0]).headers)
      && (page.after.Some? ==>
            var next := TradeParams(nextLimit, nextBefore, Some(StrParam(page.after.value)));
            && ("after" in next <==> page.after.value != "")
            && (page.after.value != "" ==> next["after"] == StrParam(page.after.value)))
  {
  }

  /**
   The default arguments (`level=1`, `limit=100`, `granularity=3600`,
   `url=URL`) are accepted: with them the calls send their one request to
   the production URL.
   */
  lemma DefaultsAccepted<B>(productId: string, server: Request -> Response<B>, candles: Request -> Response<seq<Row>>,
                            ts: string -> Option<real>)
    ensures DefaultLevel in Levels && DefaultGranularity in Granularities
    ensures GetOrderBook(Client(Url), productId, DefaultLevel, server).result.Success?
    ensures GetOrderBook(Client(Url), productId, DefaultLevel, server).sent[0].url == Url + ProductPath(productId, Book)
    ensures GetTrades(Client(Url), productId, DefaultTradeLimit, None, None, server).sent[0].params.value
      == map["limit" := IntParam(DefaultTradeLimit)]
    ensures GetHistoricRates(Client(Url), productId, DefaultGranularity, None, None, candles, ts).result
      == Success(candles(GetHistoricRates(Client(Url), productId, DefaultGranularity, None, None, candles, ts).sent[0]).body)
  {
  }
}

=== FILE: websocket.dfy ===
/**
 Model of the websocket channel descriptor of copra/websocket.py: a channel
 name checked against the feed's channel names and a set of product ids,
 its dictionary form used in subscribe messages, and the normalisation of the
 client's initial channel argument.
 */
module Websocket {
  import opened Wrappers

  /** The channel names the feed understands, all lower-case. */
  const ChannelNames: set<string> := {"heartbeat", "ticker", "level2", "full", "matches", "user"}

  /** KELVIN SIGN, the one non-ASCII character whose lower-case form is an ASCII letter. */
  const KelvinSign: char := '\U{212A}'

  /** Lower-case mapping of one character: ASCII letters, plus KELVIN SIGN to 'k'. */
  function LowerChar(c: char): char
  {
    if 'A' <= c <= 'Z' then (c as int + 32) as char
    else if c == KelvinSign then 'k'
    else c
  }

  /** `str.lower()`, character by character. */
  function Lower(s: string): string
  {
    seq(|s|, i requires 0 <= i < |s| => LowerChar(s[i]))
  }

  /** Lower-casing an already lower-cased name changes nothing. */
  lemma LowerIdempotent(s: string)
    ensures Lower(Lower(s)) == Lower(s)
  {
  }

  /** The `product_ids` argument: one id, or a list of ids. */
  datatype ProductIds = Single(id: string) | Many(ids: seq<string>)

  /** Python truthiness of the argument: an empty string or an empty list is false. */
  predicate Truthy(p: ProductIds)
  {
    match p
    case Single(id) => id != ""
    case Many(ids) => ids != []
  }

  /** A lone id is wrapped into a one-element list; a list is taken as is. */
  function AsList(p: ProductIds): seq<string>
  {
    match p
    case Single(id) => [id]
    case Many(ids) => ids
  }

  datatype Channel = Channel(name: string, productIds: set<string>)

  /** The two `ValueError`s of the constructor. */
  datatype ChannelError = InvalidName(name: string) | NoProductIds

  /**
   `Channel(name, product_ids)`: the lower-cased name must be a channel
   name (checked first), the ids must be truthy, and the ids become a set.
   */
  function NewChannel(name: string, productIds: ProductIds): (r: Result<Channel, ChannelError>)
    ensures r.Success? <==> Lower(name) in ChannelNames && Truthy(productIds)
    ensures Lower(name) !in ChannelNames ==> r == Failure(InvalidName(name))
    ensures Lower(name) in ChannelNames && !Truthy(productIds) ==> r == Failure(NoProductIds)
    ensures r.Success? ==> r.value.name == Lower(name) && r.value.name in ChannelNames
    ensures r.Success? ==> forall id :: id in r.value.productIds <==> id in AsList(productIds)
    ensures r.Success? ==> r.value.productIds != {}
  {
    var lowered := Lower(name);
    if lowered !in ChannelNames then Failure(InvalidName(name))
    else if !Truthy(productIds) then Failure(NoProductIds)
    else
      var ids := AsList(productIds);
      assert ids[0] in ids;
      Success(Channel(lowered, set id | id in ids))
  }

  /** The stored name is lower-case: lower-casing it again gives it back. */
  lemma StoredNameIsLowerCase(name: string, productIds: ProductIds)
    requires NewChannel(name, productIds).Success?
    ensures Lower(NewChannel(name, productIds).value.name) == NewChannel(name, productIds).value.name
  {
    LowerIdempotent(name);
  }

  /** Names that differ only in case are accepted or refused together and give equal channels. */
  lemma NameCaseInsensitive(a: string, b: string, productIds: ProductIds)
    requires Lower(a) == Lower(b)
    ensures NewChannel(a, productIds).Success? <==> NewChannel(b, productIds).Success?
    ensures NewChannel(a, productIds).Success? ==> NewChannel(a, productIds) == NewChannel(b, productIds)
  {
  }

  /** A single id yields exactly the set holding that id. */
  lemma SingleIdIsWrapped(name: string, id: string)
    requires Lower(name) in ChannelNames && id != ""
    ensures NewChannel(name, Single(id)) == Success(Channel(Lower(name), {id}))
  {
    var ids := set x | x in AsList(Single(id));
    assert ids == {id};
  }

  /**
   Only which ids occur matters: two lists with the same elements, in any
   order and with any repetition, give the same channel.
   */
  lemma OnlyDistinctIdsMatter(name: string, xs: seq<string>, ys: seq<string>)
    requires forall id :: id in xs <==> id in ys
    ensures NewChannel(name, Many(xs)) == NewChannel(name, Many(ys))
  {
    if xs != [] {
      assert xs[0] in ys;
    }
    if ys != [] {
      assert ys[0] in xs;
    }
    var sx := set id | id in xs;
    var sy := set id | id in ys;
    assert sx == sy;
  }

  /** The dictionary form `{'name': ..., 'product_ids': [...]}` of a channel. */
  datatype ChannelDict = ChannelDict(name: string, productIds: seq<string>)

  /** All elements of a list are different. */
  predicate Distinct(xs: seq<string>)
  {
    forall i, j :: 0 <= i < j < |xs| ==> xs[i] != xs[j]
  }

  /**
   `Channel.as_dict`: the name as stored and the id set listed in some
   order (Python's set iteration order), each id exactly once.
   */
  method AsDict(c: Channel) returns (d: ChannelDict)
    ensures d.name == c.name
    ensures Distinct(d.productIds)
    ensures forall id :: id in d.productIds <==> id in c.productIds
    ensures |d.productIds| == |c.productIds|
  {
    var listed: seq<string> := [];
    var rest := c.productIds;
    while rest != {}
      invariant rest <= c.productIds
      invariant forall id :: id in listed <==> id in c.productIds && id !in rest
      invariant Distinct(listed)
      invariant |listed| + |rest| == |c.productIds|
      decreases |rest|
    {
      var id :| id in rest;
      listed := listed + [id];
      rest := rest - {id};
    }
    d := ChannelDict(c.name, listed);
  }

  /** The `channels` argument of the client: one channel, or a list of them. */
  datatype ChannelArg = OneChannel(channel: Channel) | ChannelList(channels: seq<Channel>)

  datatype Client = Client(initialChannels: seq<Channel>, feedUrl: string)

  /** `Client(channels, feed_url)`: a lone channel is wrapped into a one-element list. */
  function NewClient(channels: ChannelArg, feedUrl: string): (r: Client)
    ensures r.feedUrl == feedUrl
    ensures channels.OneChannel? ==> r.initialChannels == [channels.channel]
    ensures channels.ChannelList? ==> r.initialChannels == channels.channels
  {
    match channels
    case OneChannel(c) => Client([c], feedUrl)
    case ChannelList(cs) => Client(cs, feedUrl)
  }

  /** Passing one channel is the same as passing the one-element list of it. */
  lemma OneChannelIsSingletonList(c: Channel, feedUrl: string)
    ensures NewClient(OneChannel(c), feedUrl) == NewClient(ChannelList([c]), feedUrl)
  {
  }
}

=== FILE: wrappers.dfy ===
/** Failure-carrying values shared by the modules of this model. */
module Wrappers {

  /** An optional value: Python's `None` or a present value. */
  datatype Option<+T> = None | Some(value: T)

  /** The outcome of an operation that may raise: a value or the error raised. */
  datatype Result<+T, +E> = Success(value: T) | Failure(error: E)
}
